=== FILE: README.md ===
# MindMate chess: game-state rules in Dafny

MindMate is a browser chess application with four modes: a classic board against a computer opponent or a second local player, an analysis board, a "ghost" fog-of-war variant and a "quantum" variant. The rules of chess come from an external rules library. The application's own logic is a set of small state transitions inside its components. This project models those transitions as pure functions over immutable data and proves their invariants.

- `chess.dfy` (module `Chess`) holds the shared vocabulary: colours, pieces, squares, boards as maps from squares to pieces, legal moves with a capture flag, and a `Position`. A `Position` holds, as plain data, what the components ask the rules library: the board, the side to move, the legal moves, check, and game over. The position after a move is always a parameter.
- `clock.dfy` (module `Clock`) is the per-second countdown that the classic and ghost games share.
- `board3d.dfy` (module `Board3D`) models the three-dimensional board. It covers square names in the algebraic notation of Appendix C of the FIDE Laws of Chess, square colours, and the move, capture and quantum indicators.
- `evaluation.dfy` (module `Evaluation`) holds the material and centre-control scores in tenths of a pawn: pawn 10, knight 30, bishop 30, rook 50, queen 90, king 0, centre square 3, check 5.
- `ranking.dfy` (module `Ranking`) holds the first-maximum loop of the best-move hint, and the stable descending sort and top-three pick of the computer opponent.
- `classic.dfy` (module `ClassicGame`) covers the snapshot history with its cursor, undo, redo, reset, clock tick, hint and computer choice.
- `quantum.dfy` (module `QuantumGame`) covers the entangled-pair registry, the quantum-move rule and click handling.
- `ghost.dfy` (module `GhostGame`) covers the visible-square set, ghosting, the reveal power-up, capture recording, the computer move and the clock.

Undo only moves the cursor; the next recorded move drops the entries after it.

## Model

| member | source | states |
|---|---|---|
| `ClassicGame.RecordAt` | src/components/ChessGame.tsx:79-88 | The recording keeps the first index+1 entries, as `slice` does: clamped at the end, with a negative end counting back from the end. It appends the snapshot and advances the cursor by one from its own value. From a valid cursor and a seen index between -1 and the cursor, the result has a valid cursor exactly when the seen index is the current cursor. |
| `ClassicGame.Record` | src/components/ChessGame.tsx:79-88 | From a valid cursor, entries 0..cursor are kept and the redo tail is dropped. The snapshot is appended and the cursor moves onto it, so redo is unavailable. Nothing but history and cursor changes. |
| `ClassicGame.Undo` | src/components/ChessGame.tsx:490-498 | No-op when the game is over or the cursor is at most 0. Otherwise the cursor drops by one. When the entry below the cursor exists, position and side to move come from it, the selection is cleared and the history is unchanged. When it does not exist, reading it throws after the decrement is queued, so only the cursor moves. |
| `ClassicGame.Redo` | src/components/ChessGame.tsx:500-508 | No-op when the game is over or the cursor is at the last entry. Otherwise the cursor rises by one. For a cursor of at least -1, position and side to move come from the next entry and the selection is cleared. Below -1 only the cursor moves. |
| `ClassicGame.UndoRedo` | src/components/ChessGame.tsx:490-508 | Under the history invariant, undo enables redo, and redo after undo restores the original state except for the selection. |
| `ClassicGame.RedoUndo` | src/components/ChessGame.tsx:490-508 | Under the history invariant, undo after redo restores the original state except for the selection. |
| `ClassicGame.UndoRedoPreserveInv` | src/components/ChessGame.tsx:390-397 | Undo and redo keep the cursor within [0, length-1] on a non-empty history and keep the board equal to the entry under the cursor. Neither changes the history. |
| `ClassicGame.CommitMove` | src/components/ChessGame.tsx:227-236 | An accepted move installs the library's position and lets the side to move follow it. It clears the selection, records the snapshot after entries 0..cursor, ends the game if the library says so, and keeps the history invariant. |
| `ClassicGame.AiReplyAsWritten` | src/components/ChessGame.tsx:90-118 | The computer's reply slices the history with the cursor value from before the player's move, while the cursor advances from its current value. It installs the library's position and side to move and ends the game if the library says so. Nothing else changes: a piece selected while the computer was thinking stays selected. |
| `ClassicGame.AiReply` | src/components/ChessGame.tsx:108-115 | The reply recorded at the current cursor keeps the history invariant. It records after entries 0..cursor, installs the library's position, ends the game if the library says so, and leaves the selection alone. |
| `ClassicGame.StaleReplyLosesPlayerMove` | src/components/ChessGame.tsx:79-111 | A player move followed by the reply as written drops the player's snapshot, leaves the cursor one past the last entry and makes the first undo a no-op on the board. Recording with the current cursor keeps both snapshots and the invariant. |
| `ClassicGame.FirstReplyAfterMount` | src/components/ChessGame.tsx:86-120 | The first reply after mount records with the first render's cursor -1. The history shrinks to the reply's snapshot alone and the cursor ends at 2. Undo stays enabled and only moves the cursor, which is still past the end. |
| `ClassicGame.Reset` | src/components/ChessGame.tsx:510-526 | After reset there is one entry (the start position) with cursor 0, evaluation 0, White to move, no selection and the game running. Both clocks are at timeControl·60 when a time control is set, and neither undo nor redo is available. |
| `ClassicGame.ResetAsWritten` | src/components/ChessGame.tsx:510-526 | As written, the single entry after a reset holds the position and evaluation from before the reset. |
| `ClassicGame.ResetAsWrittenUndoesToOldGame` | src/components/ChessGame.tsx:510-526 | After a reset as written and one move, undo returns to the pre-reset position. After the intended reset it returns to the start. |
| `ClassicGame.Tick` | src/components/ChessGame.tsx:52-77 | With a time control set and the game running, one tick takes exactly one second from the side to move. A clock already at 0 ends the game and changes no clock. The other clock is never touched, and nothing happens without a time control or after game over. |
| `Clock.Tick` | src/components/ChessGame.tsx:57-69 | A tick decrements only the mover's clock, by one. When that clock is at 0 it leaves the clock alone and flags game over. |
| `Clock.IntervalTick` | src/components/GhostChessGame.tsx:43-68 | The interval runs only with a time control and a running game. The mover's clock never increases and the other clock never changes. |
| `Clock.TicksClamp` | src/components/ChessGame.tsx:57-69 | n ticks leave max(0, t-n) on the mover's clock and do not touch the other clock. The game ends exactly when n exceeds t. |
| `Evaluation.EvaluatePosition` | src/components/ChessGame.tsx:122-153 | The 8×8 loop plus the centre pass computes the colour-signed material sum over all 64 squares plus ±3 per occupied centre square. |
| `Evaluation.AllSquaresComplete` | src/components/ChessGame.tsx:134-142 | The order the evaluation visits squares in lists each of the 64 squares exactly once. |
| `Evaluation.EmptyScore` | src/components/ChessGame.tsx:122-153 | An empty board scores 0. |
| `Evaluation.SwapScore` | src/components/ChessGame.tsx:122-153 | Swapping every piece's colour negates the score. |
| `Evaluation.HintScoreSymmetric` | src/components/ChessGame.tsx:164-194 | The hint score of a board for White equals that of the colour-swapped board for Black. Its material term is the White-positive material signed towards the mover. |
| `ClassicGame.BestMoveHint` | src/components/ChessGame.tsx:155-203 | Returns null exactly when the game is over or there is no legal move. Otherwise it returns the squares of a legal move of maximal hint score, the earliest among ties. |
| `Ranking.FirstMax` | src/components/ChessGame.tsx:161-200 | Because only a strictly greater score replaces the best, the result is the first index of maximal score. It is -1 only for no candidates. |
| `Ranking.SortFacts` | src/components/ChessGame.tsx:104 | The ranking sort yields a permutation of the candidates in descending score order. |
| `Ranking.SortRank` | src/components/ChessGame.tsx:104 | The sort is stable. The entry at each position p of the sorted list is an input entry whose stable rank is p: the number of entries scoring more, plus the tied entries listed before it. |
| `Ranking.TopPick` | src/components/ChessGame.tsx:104-106 | The entry picked from the first min(3, n) after sorting is the candidate whose stable rank is `pick`. At most `pick` (< 3) candidates score strictly more. |
| `Ranking.TiedPickInOrder` | src/components/ChessGame.tsx:104-106 | When all candidates tie, pick k plays the k-th candidate in the library's move order, so only the first three can be played. |
| `ClassicGame.AiChoice` | src/components/ChessGame.tsx:90-108 | The computer plays only in computer mode, with the game running and some legal move. It plays the legal move whose stable rank, by score for the side to move, is `pick`. So at most `pick` (< 3) legal moves score strictly better for the side to move. |
| `ClassicGame.AiChoiceAsWritten` | src/components/ChessGame.tsx:97-106 | As written, the computer plays the legal move whose stable rank in the White-positive evaluation is `pick`, whichever side it plays. That move has fewer than three legal moves above it. |
| `ClassicGame.BlackAiAvoidsItsBestMove` | src/components/ChessGame.tsx:97-106 | Playing Black with four or more moves, the choice as written never takes Black's strictly best move. The mover-relative ranking takes it with the first pick. |
| `QuantumGame.CreateQuantumState` | src/components/QuantumChessGame.tsx:33-40 | A fresh quantum state records the square and the piece, with probability 1. |
| `QuantumGame.HandleEntanglement` | src/components/QuantumChessGame.tsx:90-120 | An empty square changes nothing, and re-clicking the selection clears it without adding a pair. A pair is appended exactly when neither square is already entangled. Pairs are never removed, and the selection is cleared after a second square whether or not a pair was added. |
| `QuantumGame.EntanglementKeepsPairsWellFormed` | src/components/QuantumChessGame.tsx:106-117 | No pair links a square to itself, and every square stays in at most one pair. |
| `QuantumGame.HandleQuantumMove` | src/components/QuantumChessGame.tsx:42-88 | from = to, or an empty from, changes nothing, and so does an illegal target outside quantum mode. Otherwise exactly one quantum state is appended with the target and the moved piece. A legal move is played with the side to move following the board. An illegal target in quantum mode keeps the board and flips the side to move. |
| `QuantumGame.OnSquareClick` | src/components/QuantumChessGame.tsx:122-170 | Outside entangle mode, only a piece of the current player can be selected, and the click after a selection always clears it. In quantum mode a click on another square is the quantum move from the selection, with the selection cleared. Outside quantum mode a legal target installs the library's position and side to move, ends the game if the library says so, and changes nothing else. An illegal target changes only the selection. |
| `QuantumGame.ClickKeepsPairsWellFormed` | src/components/QuantumChessGame.tsx:122-170 | No click in any mode breaks the pair invariant or removes a pair. |
| `GhostGame.UpdateVisiblePieces` | src/components/GhostChessGame.tsx:70-99 | The row-by-row walk yields exactly the union of the player's piece squares, the occupied targets of their legal moves, and the last-capture square. |
| `GhostGame.VisitSquare` | src/components/GhostChessGame.tsx:75-90 | One square of the walk adds its own square and the occupied targets of its moves when it holds a piece of the player, and nothing otherwise. |
| `GhostGame.VisibleFacts` | src/components/GhostChessGame.tsx:70-98 | Every own piece is visible. The only empty square that can be visible is the last capture. A visible enemy piece is the last capture or the target of an own legal move. |
| `GhostGame.GhostedFacts` | src/components/GhostChessGame.tsx:105-125 | A piece is drawn as a ghost exactly when no reveal is active, it belongs to the other side, it is not on the last-capture square, and no legal move of a piece of the player to move targets it. |
| `GhostGame.Reveal` | src/components/GhostChessGame.tsx:181-190 | With power-ups left, one is spent and the reveal turns on. With none left nothing changes. |
| `GhostGame.RevealTimesSpends` | src/components/GhostChessGame.tsx:181-190 | n presses leave max(0, p-n) power-ups, so the count never goes negative. The reveal is on exactly when it was on or a power-up was spent. |
| `GhostGame.OnSquareClick` | src/components/GhostChessGame.tsx:127-162 | A legal target plays the move and ends the game if the library says so. A capturing move records its target as the last capture; a non-capturing one leaves it. Nothing else changes, including power-ups, the reveal, the clock and the time control. An illegal target only clears the selection, and with nothing selected only an own piece can be selected. |
| `GhostGame.CaptureStaysVisible` | src/components/GhostChessGame.tsx:144-146 | After a click that captures, the target becomes the last capture, is in the visible set and is not ghosted. |
| `GhostGame.AiMove` | src/components/GhostChessGame.tsx:164-179 | The computer's move is a member of the legal-move list. It is played only in computer mode with the game running. It installs the library's position and side to move, ends the game if the library says so, and changes nothing else, so neither the last capture nor the selection changes. In ghost mode, the only mode the application opens this variant in, it never plays. |
| `GhostGame.AiMoveIsAClick` | src/components/GhostChessGame.tsx:127-179 | The computer's move is legal for the player to move, and it has the same effect as clicking its squares, except that the click records a capture and clears the selection. |
| `GhostGame.Tick` | src/components/GhostChessGame.tsx:48-61 | A tick decrements only the side to move, by one. It flags game over when that clock is already 0 and leaves the other clock alone. |
| `Board3D.CellName` | src/components/3D/ChessBoard.tsx:62-64 | Cell (file, rank) is named by the letter 'a'+file followed by the digit 8-rank, and the name reads back as that cell's square. |
| `Board3D.BoardNames` | src/components/3D/ChessBoard.tsx:133-135 | Over the 8×8 loop the 64 names are distinct and are exactly the algebraic square names. |
| `Board3D.NameParse` | src/components/3D/ChessBoard.tsx:64 | Every algebraic square name is the name of the square it denotes. |
| `Board3D.LightSquares` | src/components/3D/ChessBoard.tsx:63 | A cell is light exactly when file+rank is even. In chess terms a1 is dark, h1 is light, and colours alternate along files and ranks. |
| `Board3D.SelectedMoves` | src/components/3D/ChessBoard.tsx:19-22 | With no selected piece the legal-move list is empty. Otherwise it holds exactly the legal moves from the selected square. |
| `Board3D.SquareIndicators` | src/components/3D/ChessBoard.tsx:66-94 | The move marker shows exactly when a legal move of the selected piece targets the square. Capture sizing needs a capturing such move, so capture implies move. The quantum marker shows exactly when a piece is selected and the square is not a target, so the two markers never coincide. |
| `Board3D.RenderCell` | src/components/3D/ChessBoard.tsx:62-94 | The clicked name reads back as the cell's square. The cell shows that square's piece, its colour by parity and its indicators. |
| `Chess.FindMove` | src/components/GhostChessGame.tsx:133-146 | Finds a legal move between the two squares exactly when one exists, and returns that move with its capture flag. |
| `Chess.MovesFrom` | src/components/GhostChessGame.tsx:82 | The per-square move list holds exactly the legal moves starting on that square. |

## Findings

| source | as written | input that shows it | evidently intended | confidence | as-written member | corrected member |
|---|---|---|---|---|---|---|
| src/components/ChessGame.tsx:86 | The computer's reply runs in a callback memoised before the player's move. Its recording slices the history at the cursor that callback saw, but still increments the current cursor. | Right after mount: history [s0], cursor 0, and the callback saw cursor -1. The player moves ([s0, s1], cursor 1), then the computer replies. The history becomes [s2] with cursor 2, undo is enabled, and it reads a missing entry. In a later game that callback saw cursor 0: from [s0], a move and the reply leave [s0, s2] with cursor 2. The player's snapshot is lost and the first undo leaves the board on the reply. | Record at the current cursor: history [s0, s1, s2], cursor 2 (the reply still leaves the selection alone) | medium, not executed | `ClassicGame.StaleReplyLosesPlayerMove`, `ClassicGame.FirstReplyAfterMount` | `ClassicGame.AiReply` |
| src/components/ChessGame.tsx:525 | The reset handler records a snapshot of the game from before the reset. | Reset a game that is not at the start position, then make one move and undo. Undo returns to the position of the abandoned game. | The single entry after a reset holds the start position | medium, not executed | `ClassicGame.ResetAsWrittenUndoesToOldGame` | `ClassicGame.Reset` |
| src/components/ChessGame.tsx:104 | The computer ranks its moves by the White-positive evaluation even when it plays Black. | Black to move with four legal moves, one of which wins material for Black. That move has the lowest White-positive score and is never chosen. | Rank by the evaluation from the mover's point of view | medium, not executed | `ClassicGame.BlackAiAvoidsItsBestMove` | `ClassicGame.AiChoice` |

## Left out

- The chess rules belong to the external library and are not modelled: legality, move application, FEN and PGN, check, mate and draw detection. Their results are inputs: the `Position` record, and the position after a move passed as `next`.
- Rendering is not modelled: React and three.js trees, styles, themes, animations, the square highlighting of the classic board and the quantum effects drawn on pieces. The piece component, home page, app shell, settings panel and styling configuration are not part of this model. The one exception is that App.tsx opens the ghost variant only in ghost mode, which `GhostGame.AiMove` reflects.
- Timer delays are left out: the computer's thinking time, the hint, reveal and last-capture expiry timeouts, and the delay before the computer replies. Only the per-event and per-tick transitions are modelled.
- Randomness is a parameter. `pick` is the random index and must lie within the stated bounds. `probability` is stored in a quantum state without being constrained. The random drift added to the evaluation after a computer move is not modelled, and the evaluation only changes on reset.
- Floating-point scores are scaled by ten to integers.
- React's asynchronous state updates are modelled as sequential updates. The two places where stale values change behaviour are listed under Findings. The extra visibility update inside the ghost click handler is subsumed: the visible set is modelled as recomputed from the state after every change.
- The PGN download is DOM and file I/O.
- Changing the time control in the settings, which refills both clocks, is not modelled as a separate operation. `Clock.Start` is the refill that reset uses.
- The selection and legality handling of the classic board's click and drop handlers is not modelled separately. The selection handling follows the same rule as the ghost and quantum boards. Their common tail, after the library accepts a move, is `ClassicGame.CommitMove`.
- ClassicGame.BestMoveHint: the hint's material term sums the board in a fixed square order rather than the library's row order. The sum does not depend on the order.
- Board3D.SquareIndicators: the indicators take the legal moves of the selected square from the library's position, which lists moves only for the side to move.

=== FILE: board3d.dfy ===
/** The square logic of the three-dimensional board: naming, colouring and the
    move, capture and quantum indicators drawn on each square.

    The board is drawn as an 8x8 grid indexed by (file, row): `file` 0 is the
    a-file and `row` 0 is the far row, the eighth rank. Square names follow
    the algebraic notation of Appendix C of the FIDE Laws of Chess: a file
    letter 'a'..'h' followed by a rank digit '1'..'8'. */
module Board3D {
  import opened Chess

  /** The algebraic name of a square, e.g. "e4". */
  function SquareName(sq: Square): (s: string)
    ensures |s| == 2
    ensures 'a' <= s[0] <= 'h' && '1' <= s[1] <= '8'
  {
    [(97 + sq.file) as char, (49 + sq.rank) as char]
  }

  /** A two-character algebraic square name. */
  predicate IsAlgebraic(s: string)
  {
    |s| == 2 && 'a' <= s[0] <= 'h' && '1' <= s[1] <= '8'
  }

  /** Reads an algebraic square name; anything else is rejected. */
  function ParseSquare(s: string): (r: Option<Square>)
    ensures r.Some? <==> IsAlgebraic(s)
  {
    if IsAlgebraic(s) then
      Some(Square(s[0] as int - 97, s[1] as int - 49))
    else None
  }

  /** Naming and reading are inverse: every square has exactly one name. */
  lemma ParseName(sq: Square)
    ensures ParseSquare(SquareName(sq)) == Some(sq)
  {
  }

  lemma NameParse(s: string)
    requires IsAlgebraic(s)
    ensures ParseSquare(s).Some? && SquareName(ParseSquare(s).value) == s
  {
    var n := SquareName(ParseSquare(s).value);
    assert n[0] == s[0] && n[1] == s[1];
  }

  /** The square drawn at grid cell (file, row). */
  function CellSquare(file: Coord, row: Coord): (sq: Square)
    ensures sq.file == file && sq.rank + row == 7
  {
    Square(file, 7 - row)
  }

  /** The name the grid cell (file, row) shows and reports when clicked: the
      letter 'a' + file followed by the digit 8 - row. */
  function CellName(file: Coord, row: Coord): (s: string)
    ensures s == [(97 + file) as char, (48 + 8 - row) as char]
    ensures ParseSquare(s) == Some(CellSquare(file, row))
  {
    ParseName(CellSquare(file, row));
    SquareName(CellSquare(file, row))
  }

  /** Walks the grid as the board does, row by row and file by file within a
      row, and lists the name of each cell. The 64 names are distinct and are
      exactly the algebraic square names. */
  method BoardNames() returns (names: seq<string>)
    ensures |names| == 64
    ensures forall i, j :: 0 <= i < j < |names| ==> names[i] != names[j]
    ensures forall s :: s in names <==> IsAlgebraic(s)
  {
    names := [];
    var row := 0;
    while row < 8
      invariant 0 <= row <= 8
      invariant |names| == 8 * row
      invariant forall k :: 0 <= k < |names| ==> ParseSquare(names[k]) == Some(Square(k % 8, 7 - k / 8))
    {
      var file := 0;
      while file < 8
        invariant 0 <= file <= 8
        invariant |names| == 8 * row + file
        invariant forall k :: 0 <= k < |names| ==> ParseSquare(names[k]) == Some(Square(k % 8, 7 - k / 8))
      {
        names := names + [CellName(file, row)];
        file := file + 1;
      }
      row := row + 1;
    }
    forall i, j | 0 <= i < j < |names|
      ensures names[i] != names[j]
    {
      assert ParseSquare(names[i]) != ParseSquare(names[j]);
    }
    forall s | IsAlgebraic(s)
      ensures s in names
    {
      var sq := ParseSquare(s).value;
      var k := 8 * (7 - sq.rank) + sq.file;
      assert ParseSquare(names[k]) == Some(sq);
      NameParse(s);
      NameParse(names[k]);
    }
  }

  /** Light squares are the cells whose file and row add up to an even number. */
  predicate IsLight(file: Coord, row: Coord)
  {
    (file + row) % 2 == 0
  }

  /** In chess terms: a1 is dark and h1 is light, as the Laws of Chess require
      (the right-hand corner square nearest each player is light), and the
      colour alternates along every file and rank. */
  lemma LightSquares(file: Coord, row: Coord)
    ensures IsLight(file, row) <==> (CellSquare(file, row).file + CellSquare(file, row).rank) % 2 == 1
    ensures !IsLight(0, 7) && IsLight(7, 7)
    ensures file < 7 ==> (IsLight(file, row) <==> !IsLight(file + 1, row))
    ensures row < 7 ==> (IsLight(file, row) <==> !IsLight(file, row + 1))
  {
  }

  /** The legal moves of the selected piece; none when nothing is selected. */
  function SelectedMoves(pos: Position, selected: Option<Square>): (r: seq<Move>)
    ensures selected.None? ==> r == []
    ensures selected.Some? ==> forall m :: m in r <==> m in pos.legal && m.from == selected.value
  {
    match selected
    case None => []
    case Some(from) => MovesFrom(pos.legal, from)
  }

  /** What is drawn on a square besides the square and its piece. */
  datatype Indicators = Indicators(move: bool, capture: bool, quantum: bool)

  /** Whether some move in `moves` goes to `sq`, and whether some capturing one does. */
  function Reaches(moves: seq<Move>, sq: Square, captureOnly: bool): (r: bool)
    ensures r <==> exists m :: m in moves && m.to == sq && (captureOnly ==> m.captured)
  {
    if |moves| == 0 then false
    else if moves[0].to == sq && (captureOnly ==> moves[0].captured) then true
    else
      assert forall m :: m in moves <==> m == moves[0] || m in moves[1..];
      Reaches(moves[1..], sq, captureOnly)
  }

  /** The indicators on `sq`: a move marker where the selected piece may go
      (drawn large when that move captures), and a quantum marker on every
      other square once a piece is selected. */
  function SquareIndicators(pos: Position, selected: Option<Square>, sq: Square): (r: Indicators)
    ensures r.move <==> selected.Some? && IsLegal(pos, selected.value, sq)
    ensures r.capture <==>
              (selected.Some? && exists m :: m in pos.legal && m.from == selected.value && m.to == sq && m.captured)
    ensures r.quantum <==> selected.Some? && !IsLegal(pos, selected.value, sq)
    ensures r.capture ==> r.move
    ensures !(r.move && r.quantum)
    ensures selected.None? ==> r == Indicators(false, false, false)
  {
    var moves := SelectedMoves(pos, selected);
    var move := Reaches(moves, sq, false);
    var capture := Reaches(moves, sq, true);
    Indicators(move, capture, selected.Some? && !move)
  }

  /** Everything the board derives for one grid cell. */
  datatype CellView = CellView(
    square: Square,
    name: string,
    light: bool,
    piece: Option<Piece>,
    indicators: Indicators)

  /** The cell at (file, row); a click on it reports `name`. */
  function RenderCell(pos: Position, selected: Option<Square>, file: Coord, row: Coord): (r: CellView)
    ensures ParseSquare(r.name) == Some(r.square)
    ensures r.square.file == file && r.square.rank == 7 - row
    ensures r.light <==> (r.square.file + r.square.rank) % 2 == 1
    ensures r.piece.Some? <==> r.square in pos.board
    ensures r.piece.Some? ==> r.piece.value == pos.board[r.square]
    ensures r.indicators.move <==> selected.Some? && IsLegal(pos, selected.value, r.square)
    ensures r.indicators.quantum <==> selected.Some? && !r.indicators.move
  {
    var sq := CellSquare(file, row);
    var name := CellName(file, row);
    CellView(sq, name, IsLight(file, row), PieceAt(pos.board, sq), SquareIndicators(pos, selected, sq))
  }
}

=== FILE: chess.dfy ===
/** Shared vocabulary of every game mode: colours, pieces, squares, boards, and
    the position reported by the external chess-rules library.

    The rules library is not part of this model. A `Position` carries, as
    plain data, everything the components ask the library about a position:
    the board, the side to move, the list of legal moves, whether the side to
    move is in check and whether the game is over. */
module Chess {

  datatype Option<T> = None | Some(value: T)

  /** The game mode the application was opened in. */
  datatype GameMode = AiMode | LocalMode | AnalysisMode | GhostMode | QuantumMode

  datatype Color = White | Black

  function Opponent(c: Color): (o: Color)
    ensures o != c
  {
    if c == White then Black else White
  }

  datatype Kind = Pawn | Knight | Bishop | Rook | Queen | King

  datatype Piece = Piece(kind: Kind, color: Color)

  /** A file or rank index, 0 through 7. */
  type Coord = i: int | 0 <= i < 8

  /** `file` 0 is the a-file, `rank` 0 is the first rank (White's back rank). */
  datatype Square = Square(file: Coord, rank: Coord)

  /** A square absent from the map is empty. */
  type Board = map<Square, Piece>

  /** A legal move as the rules library lists it in verbose form. */
  datatype Move = Move(from: Square, to: Square, captured: bool)

  datatype Position = Position(
    board: Board,
    turn: Color,
    legal: seq<Move>,
    check: bool,
    over: bool)

  /** The legal moves that start on `sq`, in the library's order: what
      `moves({ square })` answers. */
  function MovesFrom(legal: seq<Move>, sq: Square): (r: seq<Move>)
    ensures forall m :: m in r <==> m in legal && m.from == sq
    ensures |r| <= |legal|
  {
    if |legal| == 0 then []
    else if legal[0].from == sq then [legal[0]] + MovesFrom(legal[1..], sq)
    else MovesFrom(legal[1..], sq)
  }

  /** Some legal move goes from `from` to `to`. */
  predicate IsLegal(pos: Position, from: Square, to: Square)
  {
    exists m :: m in pos.legal && m.from == from && m.to == to
  }

  /** The first legal move from `from` to `to`, if any: the move the library
      plays for that request (all promotion variants share their capture flag). */
  function FindMove(legal: seq<Move>, from: Square, to: Square): (r: Option<Move>)
    ensures r.Some? <==> exists m :: m in legal && m.from == from && m.to == to
    ensures r.Some? ==> r.value in legal && r.value.from == from && r.value.to == to
  {
    if |legal| == 0 then None
    else if legal[0].from == from && legal[0].to == to then Some(legal[0])
    else FindMove(legal[1..], from, to)
  }

  /** The piece on `sq`, if any. */
  function PieceAt(b: Board, sq: Square): Option<Piece>
  {
    if sq in b then Some(b[sq]) else None
  }
}

=== FILE: classic.dfy ===
/** The bookkeeping of the classic game (computer opponent, local two-player
    and analysis modes): the snapshot history with its cursor, undo, redo and
    reset, the clock, the best-move hint and the computer opponent's choice.

    The state mirrors the component's state variables. Positions come from
    the rules library; the position after a move is a parameter. */
module ClassicGame {
  import opened Chess
  import opened Clock
  import opened Ranking
  import Evaluation

  /** One history entry: the position (standing for its FEN) and the
      evaluation shown at the time. */
  datatype Snapshot = Snapshot(position: Position, evaluation: int)

  datatype Game = Game(
    position: Position,
    history: seq<Snapshot>,
    cursor: int,
    evaluation: int,
    current: Color,
    selected: Option<Square>,
    gameOver: bool,
    clock: Clock,
    timeControl: nat)

  /** The cursor is -1 on an empty history and indexes an entry otherwise. */
  predicate ValidCursor(h: seq<Snapshot>, cursor: int)
  {
    if |h| == 0 then cursor == -1 else 0 <= cursor < |h|
  }

  /** The history invariant: a valid cursor, and the board and side to move
      are those of the entry under the cursor. */
  predicate Inv(g: Game)
  {
    && ValidCursor(g.history, g.cursor)
    && (|g.history| > 0 ==> g.history[g.cursor].position == g.position)
    && g.current == g.position.turn
  }

  /** `s.slice(0, n)`: the first n entries, all of them when n is past the
      end; a negative n counts from the end. */
  function Take<T>(s: seq<T>, n: int): (r: seq<T>)
    ensures |r| == if n >= 0 then Min(n, |s|) else if |s| + n <= 0 then 0 else |s| + n
    ensures r == s[..|r|]
  {
    if n >= |s| then s
    else if n >= 0 then s[..n]
    else if |s| + n <= 0 then []
    else s[..|s| + n]
  }

  /** Recording a snapshot, with the history sliced at `index + 1`, where
      `index` is the cursor value the recording code sees; the cursor itself
      always advances by one from its current value. */
  function RecordAt(g: Game, index: int): (r: Game)
    ensures index >= -1 ==> |r.history| == Min(index + 1, |g.history|) + 1
    ensures index < -1 ==> |r.history| == (if |g.history| + index + 1 <= 0 then 0 else |g.history| + index + 1) + 1
    ensures r.history[..|r.history| - 1] == g.history[..|r.history| - 1]
    ensures r.history[|r.history| - 1] == Snapshot(g.position, g.evaluation)
    ensures r.cursor == g.cursor + 1
    ensures r == g.(history := r.history, cursor := r.cursor)
    ensures ValidCursor(g.history, g.cursor) && -1 <= index <= g.cursor ==>
              (ValidCursor(r.history, r.cursor) <==> index == g.cursor)
  {
    g.(history := Take(g.history, index + 1) + [Snapshot(g.position, g.evaluation)],
       cursor := g.cursor + 1)
  }

  /** Recording the current position: entries 0..cursor are kept, the redo
      tail is dropped, the snapshot is appended and the cursor moves onto it,
      so redo is unavailable right after a move. */
  function Record(g: Game): (r: Game)
    ensures ValidCursor(g.history, g.cursor) ==>
              && |r.history| == g.cursor + 2
              && r.history[..g.cursor + 1] == g.history[..g.cursor + 1]
              && r.history[g.cursor + 1] == Snapshot(g.position, g.evaluation)
              && r.cursor == |r.history| - 1
              && !CanRedo(r)
    ensures r == g.(history := r.history, cursor := r.cursor)
  {
    RecordAt(g, g.cursor)
  }

  /** Whether the undo button is enabled. */
  predicate CanUndo(g: Game)
  {
    !g.gameOver && g.cursor > 0
  }

  /** Whether the redo button is enabled. */
  predicate CanRedo(g: Game)
  {
    !g.gameOver && g.cursor < |g.history| - 1
  }

  /** Step back one entry. A no-op when the game is over or the cursor is at
      the first entry. When the entry below the cursor does not exist (a
      cursor left past the end by a stale recording), the handler has already
      queued the cursor decrement when reading the missing entry throws, so
      only the cursor moves. */
  function Undo(g: Game): (r: Game)
    ensures !CanUndo(g) ==> r == g
    ensures CanUndo(g) ==> r.cursor == g.cursor - 1
    ensures CanUndo(g) && g.cursor - 1 < |g.history| ==>
              && r.position == g.history[g.cursor - 1].position
              && r.current == r.position.turn
              && r.selected == None
              && r == g.(cursor := r.cursor, position := r.position, current := r.current, selected := None)
    ensures CanUndo(g) && g.cursor - 1 >= |g.history| ==> r == g.(cursor := g.cursor - 1)
  {
    if g.gameOver || g.cursor <= 0 then g
    else if g.cursor - 1 >= |g.history| then g.(cursor := g.cursor - 1)
    else
      var p := g.history[g.cursor - 1].position;
      g.(cursor := g.cursor - 1, position := p, current := p.turn, selected := None)
  }

  /** Step forward one entry. A no-op when the game is over or the cursor is
      at the last entry. A cursor below -1, which no recording produces,
      would make the read of the next entry throw after the cursor increment
      is queued, so only the cursor moves. */
  function Redo(g: Game): (r: Game)
    ensures !CanRedo(g) ==> r == g
    ensures CanRedo(g) ==> r.cursor == g.cursor + 1
    ensures CanRedo(g) && g.cursor >= -1 ==>
              && r.position == g.history[g.cursor + 1].position
              && r.current == r.position.turn
              && r.selected == None
              && r == g.(cursor := r.cursor, position := r.position, current := r.current, selected := None)
    ensures CanRedo(g) && g.cursor < -1 ==> r == g.(cursor := g.cursor + 1)
  {
    if g.gameOver || g.cursor >= |g.history| - 1 then g
    else if g.cursor < -1 then g.(cursor := g.cursor + 1)
    else
      var p := g.history[g.cursor + 1].position;
      g.(cursor := g.cursor + 1, position := p, current := p.turn, selected := None)
  }

  /** Undo followed by redo comes back to the same cursor and position; only
      the selection is cleared. */
  lemma UndoRedo(g: Game)
    requires Inv(g) && CanUndo(g)
    ensures CanRedo(Undo(g))
    ensures Redo(Undo(g)) == g.(selected := None)
  {
  }

  /** Redo followed by undo comes back as well. */
  lemma RedoUndo(g: Game)
    requires Inv(g) && CanRedo(g)
    ensures CanUndo(Redo(g))
    ensures Undo(Redo(g)) == g.(selected := None)
  {
  }

  /** Undo and redo keep the history invariant; neither changes the history. */
  lemma UndoRedoPreserveInv(g: Game)
    requires Inv(g)
    ensures Inv(Undo(g)) && Undo(g).history == g.history
    ensures Inv(Redo(g)) && Redo(g).history == g.history
  {
  }

  /** The tail of an accepted move: the library's new position is installed,
      the side to move follows it, the selection is cleared, the position is
      recorded, and the game ends if the library says so. */
  function CommitMove(g: Game, next: Position): (r: Game)
    ensures Inv(g) ==> Inv(r)
    ensures ValidCursor(g.history, g.cursor) ==>
              && r.history == g.history[..g.cursor + 1] + [Snapshot(next, g.evaluation)]
              && r.cursor == g.cursor + 1
    ensures r.position == next && r.current == next.turn && r.selected == None
    ensures r.gameOver <==> g.gameOver || next.over
  {
    var moved := g.(position := next, current := next.turn, selected := None);
    Record(moved).(gameOver := g.gameOver || next.over)
  }

  /** The computer's reply as written: it runs from a callback created before
      the player's move, so its recording slices the history with the cursor
      value `stale` from before that move, while the cursor still advances
      from its current value. The reply leaves the selection alone, so a
      piece selected while the computer was thinking stays selected. */
  function AiReplyAsWritten(g: Game, stale: int, next: Position): (r: Game)
    ensures r.history == Take(g.history, stale + 1) + [Snapshot(next, g.evaluation)]
    ensures r.cursor == g.cursor + 1
    ensures r.position == next && r.current == next.turn
    ensures r == g.(history := r.history, cursor := r.cursor, position := next, current := next.turn,
                    gameOver := g.gameOver || next.over)
  {
    var moved := g.(position := next, current := next.turn);
    RecordAt(moved, stale).(gameOver := g.gameOver || next.over)
  }

  /** The computer's reply recorded at the current cursor: the library's
      position is installed and recorded after entries 0..cursor, the game
      ends if the library says so, and the selection is left alone. */
  function AiReply(g: Game, next: Position): (r: Game)
    ensures Inv(g) ==> Inv(r)
    ensures ValidCursor(g.history, g.cursor) ==>
              && r.history == g.history[..g.cursor + 1] + [Snapshot(next, g.evaluation)]
              && r.cursor == g.cursor + 1
    ensures r == g.(history := r.history, cursor := r.cursor, position := next, current := next.turn,
                    gameOver := g.gameOver || next.over)
  {
    Record(g.(position := next, current := next.turn)).(gameOver := g.gameOver || next.over)
  }

  /** A player's move followed by the computer's reply as written: the reply's
      snapshot overwrites the player's, the cursor ends one past the last
      entry, and the first undo stays on the reply's position. With the
      intended recording both snapshots are kept and the invariant holds. */
  lemma StaleReplyLosesPlayerMove(g: Game, mine: Position, reply: Position)
    requires Inv(g)
    ensures var g1 := CommitMove(g, mine);
            var g2 := AiReplyAsWritten(g1, g.cursor, reply);
            && |g2.history| == |g1.history|
            && g2.history[g.cursor + 1] == Snapshot(reply, g.evaluation)
            && g2.cursor == |g2.history|
            && !ValidCursor(g2.history, g2.cursor)
            && (!g2.gameOver ==> Undo(g2).position == reply)
    ensures var g1 := CommitMove(g, mine);
            var g2 := AiReply(g1, reply);
            && Inv(g2)
            && g2.history[g.cursor + 1] == Snapshot(mine, g.evaluation)
            && g2.history[g.cursor + 2] == Snapshot(reply, g.evaluation)
  {
    var g1 := CommitMove(g, mine);
    assert g1.history[g.cursor + 1] == Snapshot(mine, g.evaluation);
    var g2 := AiReply(g1, reply);
    assert g2.history[..g1.cursor + 1] == g1.history[..g1.cursor + 1];
    assert g2.history[g.cursor + 1] == g2.history[..g1.cursor + 1][g.cursor + 1];
  }

  /** Right after mount the reply's recording still sees the cursor -1 of
      the first render: the history shrinks to the reply's snapshot alone,
      the cursor ends two past the last entry, the undo button is enabled,
      and undo only moves the cursor, which stays past the end. */
  lemma FirstReplyAfterMount(g: Game, mine: Position, reply: Position)
    requires Inv(g) && |g.history| == 1 && !g.gameOver && !mine.over && !reply.over
    ensures var g2 := AiReplyAsWritten(CommitMove(g, mine), -1, reply);
            && g2.history == [Snapshot(reply, g.evaluation)]
            && g2.cursor == 2
            && CanUndo(g2)
            && Undo(g2) == g2.(cursor := 1)
            && !ValidCursor(Undo(g2).history, Undo(g2).cursor)
  {
  }

  /** A new game: one entry holding the start position with cursor 0,
      evaluation 0, White to move, no selection, the game running and, when a
      time control is set, both clocks full. `start` is the library's initial
      position. */
  function Reset(g: Game, start: Position): (r: Game)
    requires start.turn == White
    ensures r.history == [Snapshot(start, 0)] && r.cursor == 0
    ensures r.position == start && r.evaluation == 0 && r.current == White
    ensures r.selected == None && !r.gameOver
    ensures g.timeControl > 0 ==> r.clock == Start(g.timeControl)
    ensures g.timeControl == 0 ==> r.clock == g.clock
    ensures r.timeControl == g.timeControl
    ensures Inv(r) && !CanUndo(r) && !CanRedo(r)
  {
    var clock := if g.timeControl > 0 then Start(g.timeControl) else g.clock;
    var cleared := Game(start, [], -1, 0, White, None, false, clock, g.timeControl);
    Record(cleared)
  }

  /** Reset as written: the recording runs in the same handler as the reset,
      so it snapshots the position and evaluation from before the reset. */
  function ResetAsWritten(g: Game, start: Position): (r: Game)
    requires start.turn == White
    ensures r.history == [Snapshot(g.position, g.evaluation)] && r.cursor == 0
    ensures r.position == start && r.evaluation == 0 && r.current == White
    ensures r.selected == None && !r.gameOver
  {
    var clock := if g.timeControl > 0 then Start(g.timeControl) else g.clock;
    var cleared := Game(start, [], -1, 0, White, None, false, clock, g.timeControl);
    Record(cleared.(position := g.position, evaluation := g.evaluation)).(position := start, evaluation := 0)
  }

  /** After a reset as written and one move, undo returns to the position of
      the game that was reset, not to the start; with the intended reset it
      returns to the start. */
  lemma ResetAsWrittenUndoesToOldGame(g: Game, start: Position, next: Position)
    requires start.turn == White && !next.over && g.position != start
    ensures ResetAsWritten(g, start).history[0].position != ResetAsWritten(g, start).position
    ensures Undo(CommitMove(ResetAsWritten(g, start), next)).position == g.position
    ensures Undo(CommitMove(Reset(g, start), next)).position == start
  {
  }

  /** One interval callback of the clock, charged to the side to move. */
  function Tick(g: Game): (r: Game)
    ensures r == g.(clock := r.clock, gameOver := r.gameOver)
    ensures g.timeControl == 0 || g.gameOver ==> r == g
    ensures Remaining(r.clock, Opponent(g.current)) == Remaining(g.clock, Opponent(g.current))
    ensures g.timeControl > 0 && !g.gameOver ==>
              if Remaining(g.clock, g.current) == 0 then r.clock == g.clock && r.gameOver
              else Remaining(r.clock, g.current) + 1 == Remaining(g.clock, g.current) && !r.gameOver
    ensures Inv(g) ==> Inv(r)
  {
    var (clock, over) := IntervalTick(g.clock, g.current, g.timeControl, g.gameOver);
    g.(clock := clock, gameOver := over)
  }

  /** The hint scores of the legal moves, given the position after each. */
  function HintScores(g: Game, after: seq<Position>): (s: seq<int>)
    ensures |s| == |after|
  {
    seq(|after|, k requires 0 <= k < |after| =>
      Evaluation.HintScore(after[k].board, g.current, after[k].check))
  }

  /** The best-move hint: nothing when the game is over or there is no legal
      move; otherwise the from and to squares of the first legal move of
      maximal hint score. `after[k]` is the position after legal move k. */
  method BestMoveHint(g: Game, after: seq<Position>) returns (hint: Option<(Square, Square)>)
    requires |after| == |g.position.legal|
    ensures hint.None? <==> g.position.over || g.gameOver || |g.position.legal| == 0
    ensures hint.Some? ==>
              exists k :: IsFirstMax(HintScores(g, after), k) &&
                hint.value == (g.position.legal[k].from, g.position.legal[k].to)
  {
    if g.position.over || g.gameOver {
      return None;
    }
    var legal := g.position.legal;
    if |legal| == 0 {
      return None;
    }
    var best := FirstMax(HintScores(g, after));
    hint := Some((legal[best].from, legal[best].to));
  }

  /** The computer's candidates as written: each legal move scored by the
      White-positive evaluation of the position after it. */
  function WhiteCandidates(legal: seq<Move>, after: seq<Position>): (s: seq<Scored<Move>>)
    requires |after| == |legal|
    ensures |s| == |legal|
    ensures forall k :: 0 <= k < |s| ==> s[k].item == legal[k]
  {
    seq(|legal|, k requires 0 <= k < |legal| => Scored(legal[k], Evaluation.Score(after[k].board)))
  }

  /** The computer's candidates scored for the side to move. */
  function MoverCandidates(legal: seq<Move>, after: seq<Position>, mover: Color): (s: seq<Scored<Move>>)
    requires |after| == |legal|
    ensures |s| == |legal|
    ensures forall k :: 0 <= k < |s| ==> s[k].item == legal[k]
  {
    seq(|legal|, k requires 0 <= k < |legal| =>
      Scored(legal[k], Evaluation.Sign(White, mover) * Evaluation.Score(after[k].board)))
  }

  /** The computer plays only in the computer-opponent mode, while the game
      is running and a legal move exists. */
  predicate AiMayMove(g: Game, mode: GameMode)
  {
    mode == AiMode && !g.position.over && !g.gameOver && |g.position.legal| > 0
  }

  /** The computer's choice as written: candidates ranked by the
      White-positive evaluation whichever side it plays. `pick` is the random
      index into the first min(3, n) ranked candidates; the move played is
      the one whose stable rank is `pick`, so among tied moves only the
      first ones in the library's order can be played. */
  function AiChoiceAsWritten(g: Game, mode: GameMode, after: seq<Position>, pick: nat): (r: Option<Move>)
    requires |after| == |g.position.legal|
    requires |g.position.legal| > 0 ==> pick < Min(3, |g.position.legal|)
    ensures r.Some? <==> AiMayMove(g, mode)
    ensures r.Some? ==>
              exists k :: 0 <= k < |g.position.legal| && r.value == g.position.legal[k] &&
                CountAbove(WhiteCandidates(g.position.legal, after), WhiteCandidates(g.position.legal, after)[k].score) < 3
    ensures r.Some? ==>
              exists k :: 0 <= k < |g.position.legal| && r.value == g.position.legal[k] &&
                StableRank(WhiteCandidates(g.position.legal, after), k) == pick
  {
    if !AiMayMove(g, mode) then None
    else
      var cands := WhiteCandidates(g.position.legal, after);
      var chosen := TopPick(cands, pick);
      Some(chosen.item)
  }

  /** The computer's choice: the candidates are ranked by the evaluation
      from the point of view of the side to move, and one of the first
      min(3, n) is played. The chosen move is legal and at most two legal
      moves score strictly better for the mover; with `pick` 0 it is a best
      move. */
  function AiChoice(g: Game, mode: GameMode, after: seq<Position>, pick: nat): (r: Option<Move>)
    requires |after| == |g.position.legal|
    requires |g.position.legal| > 0 ==> pick < Min(3, |g.position.legal|)
    ensures r.Some? <==> AiMayMove(g, mode)
    ensures r.Some? ==>
              exists k :: 0 <= k < |g.position.legal| && r.value == g.position.legal[k] &&
                var cands := MoverCandidates(g.position.legal, after, g.position.turn);
                CountAbove(cands, cands[k].score) <= pick
    ensures r.Some? ==>
              exists k :: 0 <= k < |g.position.legal| && r.value == g.position.legal[k] &&
                StableRank(MoverCandidates(g.position.legal, after, g.position.turn), k) == pick
  {
    if !AiMayMove(g, mode) then None
    else
      var cands := MoverCandidates(g.position.legal, after, g.position.turn);
      var chosen := TopPick(cands, pick);
      Some(chosen.item)
  }

  /** As written, when the computer plays Black with at least four legal
      moves, Black's strictly best move is never chosen, whatever the random
      pick; ranked for the side to move, the first pick is exactly that move. */
  lemma BlackAiAvoidsItsBestMove(g: Game, after: seq<Position>, pick: nat, k: nat)
    requires g.position.turn == Black && !g.position.over && !g.gameOver
    requires |after| == |g.position.legal| >= 4 && pick < 3
    requires k < |g.position.legal|
    requires forall i :: 0 <= i < |g.position.legal| && i != k ==> g.position.legal[i] != g.position.legal[k]
    requires forall i :: 0 <= i < |g.position.legal| && i != k ==>
               Evaluation.Score(after[k].board) < Evaluation.Score(after[i].board)
    ensures AiChoiceAsWritten(g, AiMode, after, pick) != Some(g.position.legal[k])
    ensures AiChoice(g, AiMode, after, 0) == Some(g.position.legal[k])
  {
    var legal := g.position.legal;
    var white := WhiteCandidates(legal, after);
    CountAboveAllBut(white, k);
    var mover := MoverCandidates(legal, after, Black);
    var r := AiChoice(g, AiMode, after, 0);
    var j :| 0 <= j < |legal| && r.value == legal[j] && CountAbove(mover, mover[j].score) <= 0;
    if j != k {
      CountAboveWitness(mover, mover[j].score, k);
    }
  }
}

=== FILE: clock.dfy ===
/** The per-player countdown shared by the classic and ghost games: one tick
    per second, charged to the side to move. */
module Clock {
  import opened Chess

  /** Seconds left for each side. */
  datatype Clock = Clock(white: nat, black: nat)

  function Remaining(c: Clock, side: Color): nat
  {
    if side == White then c.white else c.black
  }

  /** The clock with `side`'s time replaced by `t`. */
  function SetRemaining(c: Clock, side: Color, t: nat): (r: Clock)
    ensures Remaining(r, side) == t
    ensures Remaining(r, Opponent(side)) == Remaining(c, Opponent(side))
  {
    if side == White then c.(white := t) else c.(black := t)
  }

  /** Both sides start with `timeControl` minutes. */
  function Start(timeControl: nat): (c: Clock)
    ensures Remaining(c, White) == Remaining(c, Black) == timeControl * 60
  {
    Clock(timeControl * 60, timeControl * 60)
  }

  function Max(a: int, b: int): int
  {
    if a >= b then a else b
  }

  /** One interval callback: a clock already at zero is left alone and ends the
      game; otherwise the side to move loses one second, clamped at zero.
      Returns the new clock and whether the game is now over. */
  function Tick(c: Clock, side: Color): (r: (Clock, bool))
    ensures r.1 <==> Remaining(c, side) == 0
    ensures r.1 ==> r.0 == c
    ensures !r.1 ==> Remaining(r.0, side) + 1 == Remaining(c, side)
    ensures Remaining(r.0, Opponent(side)) == Remaining(c, Opponent(side))
  {
    var t := Remaining(c, side);
    if t <= 0 then (c, true)
    else (SetRemaining(c, side, Max(0, t - 1)), false)
  }

  /** The interval runs only while a time control is set and the game is not
      over; a tick of a stopped interval changes nothing. Returns the new
      clock and the new game-over flag. */
  function IntervalTick(c: Clock, side: Color, timeControl: nat, over: bool): (r: (Clock, bool))
    ensures timeControl == 0 || over ==> r == (c, over)
    ensures r.1 <==> over || (timeControl > 0 && Remaining(c, side) == 0)
    ensures Remaining(r.0, side) <= Remaining(c, side)
    ensures Remaining(r.0, Opponent(side)) == Remaining(c, Opponent(side))
  {
    if timeControl > 0 && !over then Tick(c, side) else (c, over)
  }

  /** `n` interval callbacks in a row with the same side to move. */
  function Ticks(c: Clock, side: Color, timeControl: nat, over: bool, n: nat): (Clock, bool)
    decreases n
  {
    if n == 0 then (c, over)
    else
      var (c', over') := IntervalTick(c, side, timeControl, over);
      Ticks(c', side, timeControl, over', n - 1)
  }

  /** With a time control set, `n` seconds of ticking leave max(0, t - n) on
      the mover's clock, never touch the other clock, and end the game exactly
      when more ticks arrive than seconds were left. */
  lemma {:induction false} TicksClamp(c: Clock, side: Color, timeControl: nat, n: nat)
    requires timeControl > 0
    ensures Remaining(Ticks(c, side, timeControl, false, n).0, side) == Max(0, Remaining(c, side) - n)
    ensures Remaining(Ticks(c, side, timeControl, false, n).0, Opponent(side)) == Remaining(c, Opponent(side))
    ensures Ticks(c, side, timeControl, false, n).1 <==> n > Remaining(c, side)
    decreases n
  {
    if n > 0 {
      var (c', over') := IntervalTick(c, side, timeControl, false);
      if over' {
        TicksStopped(c', side, timeControl, n - 1);
      } else {
        TicksClamp(c', side, timeControl, n - 1);
      }
    }
  }

  /** Once the game is over the interval is stopped: further ticks change nothing. */
  lemma {:induction false} TicksStopped(c: Clock, side: Color, timeControl: nat, n: nat)
    ensures Ticks(c, side, timeControl, true, n) == (c, true)
    decreases n
  {
    if n > 0 {
      TicksStopped(c, side, timeControl, n - 1);
    }
  }
}

=== FILE: evaluation.dfy ===
/** The static position scores of the classic game, in tenths of a pawn so
    that every comparison is exact: pawn 10, knight 30, bishop 30, rook 50,
    queen 90, king 0; 3 per occupied centre square (d4, d5, e4, e5); 5 for
    giving check. */
module Evaluation {
  import opened Chess

  function PieceValue(k: Kind): (v: nat)
    ensures k == King <==> v == 0
    ensures v <= 90
  {
    match k
    case Pawn => 10
    case Knight => 30
    case Bishop => 30
    case Rook => 50
    case Queen => 90
    case King => 0
  }

  /** +1 for `me`, -1 for the other side. */
  function Sign(c: Color, me: Color): int
  {
    if c == me then 1 else -1
  }

  /** The contribution of one square to the White-positive material count. */
  function SquareValue(b: Board, sq: Square): int
  {
    if sq in b then Sign(b[sq].color, White) * PieceValue(b[sq].kind) else 0
  }

  /** The 64 squares in the order the evaluation visits them: file by file,
      and within a file from the first rank up. */
  function AllSquares(): (s: seq<Square>)
    ensures |s| == 64
  {
    seq(64, k requires 0 <= k < 64 => Square(k / 8, k % 8))
  }

  /** `AllSquares` lists every square exactly once. */
  lemma AllSquaresComplete()
    ensures forall sq: Square :: sq in AllSquares()
    ensures forall i, j :: 0 <= i < j < 64 ==> AllSquares()[i] != AllSquares()[j]
  {
    forall sq: Square
      ensures sq in AllSquares()
    {
      assert AllSquares()[8 * sq.file + sq.rank] == sq;
    }
  }

  /** White-positive material over the squares in `s`. */
  function Material(b: Board, s: seq<Square>): int
  {
    if |s| == 0 then 0 else Material(b, s[..|s| - 1]) + SquareValue(b, s[|s| - 1])
  }

  function CentreBonus(b: Board, sq: Square): int
  {
    if sq in b then Sign(b[sq].color, White) * 3 else 0
  }

  /** The four centre squares d4, d5, e4, e5. */
  function Centre(): seq<Square>
  {
    [Square(3, 3), Square(3, 4), Square(4, 3), Square(4, 4)]
  }

  function CentreControl(b: Board): int
  {
    CentreBonus(b, Centre()[0]) + CentreBonus(b, Centre()[1]) +
    CentreBonus(b, Centre()[2]) + CentreBonus(b, Centre()[3])
  }

  /** The White-positive score of a board: material over all 64 squares plus
      the centre bonus. */
  function Score(b: Board): int
  {
    Material(b, AllSquares()) + CentreControl(b)
  }

  /** The evaluation loop: for each file, for each rank, add the signed value
      of the piece standing there; then add the centre bonus. It visits the
      squares in `AllSquares` order, so it computes `Score`. */
  method EvaluatePosition(b: Board) returns (score: int)
    ensures score == Score(b)
  {
    score := 0;
    var i := 0;
    while i < 8
      invariant 0 <= i <= 8
      invariant score == Material(b, AllSquares()[..8 * i])
    {
      var j := 0;
      while j < 8
        invariant 0 <= j <= 8
        invariant score == Material(b, AllSquares()[..8 * i + j])
      {
        var sq := Square(i, j);
        assert AllSquares()[8 * i + j] == sq;
        assert AllSquares()[..8 * i + j + 1][..8 * i + j] == AllSquares()[..8 * i + j];
        if sq in b {
          var piece := b[sq];
          var value: int := PieceValue(piece.kind);
          score := score + (if piece.color == White then value else -value);
        }
        j := j + 1;
      }
      i := i + 1;
    }
    assert AllSquares()[..64] == AllSquares();
    var c := 0;
    while c < 4
      invariant 0 <= c <= 4
      invariant score == Material(b, AllSquares()) + CentreSum(b, c)
    {
      var sq := Centre()[c];
      if sq in b {
        score := score + (if b[sq].color == White then 3 else -3);
      }
      c := c + 1;
    }
    assert CentreSum(b, 2) == CentreBonus(b, Centre()[0]) + CentreBonus(b, Centre()[1]);
    assert CentreSum(b, 4) == CentreControl(b);
  }

  /** The centre bonus of the first `n` centre squares. */
  function CentreSum(b: Board, n: nat): int
    requires n <= 4
  {
    if n == 0 then 0 else CentreSum(b, n - 1) + CentreBonus(b, Centre()[n - 1])
  }

  /** An empty board scores zero over any squares. */
  lemma {:induction false} EmptyMaterial(s: seq<Square>)
    ensures Material(map[], s) == 0
  {
    if |s| > 0 {
      EmptyMaterial(s[..|s| - 1]);
    }
  }

  lemma EmptyScore()
    ensures Score(map[]) == 0
  {
    EmptyMaterial(AllSquares());
  }

  /** The board with every piece's colour swapped. */
  function SwapColors(b: Board): (r: Board)
    ensures r.Keys == b.Keys
    ensures forall sq :: sq in r ==> r[sq] == Piece(b[sq].kind, Opponent(b[sq].color))
  {
    map sq | sq in b :: Piece(b[sq].kind, Opponent(b[sq].color))
  }

  lemma {:induction false} SwapMaterial(b: Board, s: seq<Square>)
    ensures Material(SwapColors(b), s) == -Material(b, s)
  {
    if |s| > 0 {
      SwapMaterial(b, s[..|s| - 1]);
    }
  }

  /** Swapping every piece's colour negates the score. */
  lemma SwapScore(b: Board)
    ensures Score(SwapColors(b)) == -Score(b)
  {
    SwapMaterial(b, AllSquares());
  }

  /** The score of the best-move hint for the position after a candidate
      move, seen from the side `me` that is to move before it: material
      signed towards `me`, 3 for each centre square `me` occupies, and 5 when
      the move gives check. */
  function HintScore(b: Board, me: Color, check: bool): int
  {
    Sign(White, me) * Material(b, AllSquares()) + OwnCentre(b, me) + (if check then 5 else 0)
  }

  function OwnCentre(b: Board, me: Color): int
  {
    OwnCentreAt(b, me, Centre()[0]) + OwnCentreAt(b, me, Centre()[1]) +
    OwnCentreAt(b, me, Centre()[2]) + OwnCentreAt(b, me, Centre()[3])
  }

  function OwnCentreAt(b: Board, me: Color, sq: Square): int
  {
    if sq in b && b[sq].color == me then 3 else 0
  }

  /** The hint score does not favour either colour: the score of a board for
      White equals the score of the colour-swapped board for Black, and the
      hint's material term is the White-positive material signed towards
      the mover. */
  lemma HintScoreSymmetric(b: Board, check: bool)
    ensures HintScore(b, White, check) == HintScore(SwapColors(b), Black, check)
    ensures HintScore(b, White, false) - OwnCentre(b, White) == Material(b, AllSquares())
    ensures HintScore(b, Black, false) - OwnCentre(b, Black) == -Material(b, AllSquares())
  {
    SwapMaterial(b, AllSquares());
  }
}

=== FILE: ghost.dfy ===
/** The ghost (fog-of-war) variant: the player to move sees their own pieces,
    the occupied squares their pieces can move to, and the square of the last
    capture; every other piece is drawn as a ghost unless a reveal power-up
    is active. */
module GhostGame {
  import opened Chess
  import opened Clock

  datatype Game = Game(
    position: Position,
    current: Color,
    selected: Option<Square>,
    gameOver: bool,
    revealing: bool,
    lastCapture: Option<Square>,
    powerups: nat,
    clock: Clock,
    timeControl: nat)

  /** The squares of `me`'s pieces. */
  function OwnSquares(b: Board, me: Color): set<Square>
  {
    set sq | sq in b && b[sq].color == me
  }

  /** The occupied targets of the legal moves of `me`'s pieces. */
  function SeenTargets(pos: Position, me: Color): set<Square>
  {
    set m | m in pos.legal && m.from in pos.board && pos.board[m.from].color == me && m.to in pos.board :: m.to
  }

  function CaptureSquare(lastCapture: Option<Square>): set<Square>
  {
    if lastCapture.Some? then {lastCapture.value} else {}
  }

  /** What `me` sees: own pieces, occupied targets of their legal moves, and
      the last capture square. */
  function VisibleSet(pos: Position, me: Color, lastCapture: Option<Square>): set<Square>
  {
    OwnSquares(pos.board, me) + SeenTargets(pos, me) + CaptureSquare(lastCapture)
  }

  /** The visible set is recomputed after every change of position, player
      or last capture, so it is a function of them. */
  function Visible(g: Game): set<Square>
  {
    VisibleSet(g.position, g.current, g.lastCapture)
  }

  /** The squares in board order: from the eighth rank down, a-file to h-file. */
  function RowOrder(): (s: seq<Square>)
    ensures |s| == 64
  {
    seq(64, k requires 0 <= k < 64 => Square(k % 8, 7 - k / 8))
  }

  lemma RowOrderComplete()
    ensures forall sq: Square :: sq in RowOrder()
  {
    forall sq: Square
      ensures sq in RowOrder()
    {
      assert RowOrder()[8 * (7 - sq.rank) + sq.file] == sq;
    }
  }

  /** What the squares in `done` contribute to the visible set. */
  function Contribution(pos: Position, me: Color, done: seq<Square>): set<Square>
  {
    (set sq | sq in done && sq in pos.board && pos.board[sq].color == me)
    + (set m | m in pos.legal && m.from in done && m.from in pos.board && pos.board[m.from].color == me
                 && m.to in pos.board :: m.to)
  }

  /** The visibility update: walk the board row by row; for each piece of the
      player, make its square visible and every occupied target of its legal
      moves; finally add the last capture square. */
  method UpdateVisiblePieces(pos: Position, me: Color, lastCapture: Option<Square>) returns (visible: set<Square>)
    ensures visible == VisibleSet(pos, me, lastCapture)
  {
    visible := {};
    var i := 0;
    while i < 8
      invariant 0 <= i <= 8
      invariant visible == Contribution(pos, me, RowOrder()[..8 * i])
    {
      var j := 0;
      while j < 8
        invariant 0 <= j <= 8
        invariant visible == Contribution(pos, me, RowOrder()[..8 * i + j])
      {
        var sq := Square(j, 7 - i);
        assert RowOrder()[..8 * i + j + 1] == RowOrder()[..8 * i + j] + [sq];
        visible := VisitSquare(pos, me, RowOrder()[..8 * i + j], sq, visible);
        j := j + 1;
      }
      i := i + 1;
    }
    RowOrderComplete();
    assert RowOrder()[..64] == RowOrder();
    visible := visible + CaptureSquare(lastCapture);
  }

  /** One square of the walk: a piece of the player makes its square and the
      occupied targets of its legal moves visible. */
  method VisitSquare(pos: Position, me: Color, ghost done: seq<Square>, sq: Square, visible: set<Square>)
    returns (r: set<Square>)
    requires visible == Contribution(pos, me, done)
    ensures r == Contribution(pos, me, done + [sq])
  {
    r := visible;
    var b := pos.board;
    if sq in b && b[sq].color == me {
      r := r + {sq};
      var moves := MovesFrom(pos.legal, sq);
      var t := 0;
      while t < |moves|
        invariant 0 <= t <= |moves|
        invariant r == visible + {sq} + (set m | m in moves[..t] && m.to in b :: m.to)
      {
        assert moves[..t + 1] == moves[..t] + [moves[t]];
        if moves[t].to in b {
          r := r + {moves[t].to};
        }
        t := t + 1;
      }
      assert moves[..|moves|] == moves;
      ContributionStep(pos, me, done, sq);
    } else {
      ContributionSkip(pos, me, done, sq);
    }
  }

  lemma ContributionStep(pos: Position, me: Color, done: seq<Square>, sq: Square)
    requires sq in pos.board && pos.board[sq].color == me
    ensures Contribution(pos, me, done + [sq]) ==
              Contribution(pos, me, done) + {sq}
              + (set m | m in MovesFrom(pos.legal, sq) && m.to in pos.board :: m.to)
  {
  }

  lemma ContributionSkip(pos: Position, me: Color, done: seq<Square>, sq: Square)
    requires !(sq in pos.board && pos.board[sq].color == me)
    ensures Contribution(pos, me, done + [sq]) == Contribution(pos, me, done)
  {
  }

  /** Every piece of the player to move is visible, and the only empty square
      that can be visible is the last capture square. */
  lemma VisibleFacts(pos: Position, me: Color, lastCapture: Option<Square>, sq: Square)
    ensures sq in pos.board && pos.board[sq].color == me ==> sq in VisibleSet(pos, me, lastCapture)
    ensures sq in VisibleSet(pos, me, lastCapture) && sq !in pos.board ==> lastCapture == Some(sq)
    ensures sq in VisibleSet(pos, me, lastCapture) && sq in pos.board && pos.board[sq].color != me ==>
              lastCapture == Some(sq) ||
              exists m :: m in pos.legal && m.to == sq && m.from in pos.board && pos.board[m.from].color == me
  {
  }

  /** The squares whose piece is drawn as a ghost: occupied, not visible, and
      no reveal active. */
  function Ghosted(b: Board, visible: set<Square>, revealing: bool): (r: set<Square>)
    ensures forall sq :: sq in r <==> sq in b && sq !in visible && !revealing
  {
    set sq | sq in b && sq !in visible && !revealing
  }

  /** A piece is drawn as a ghost exactly when no reveal is active, it
      belongs to the other side, it is not on the last capture square and no
      legal move of a piece of the player to move targets it. */
  lemma GhostedFacts(g: Game, sq: Square)
    ensures sq in Ghosted(g.position.board, Visible(g), g.revealing) <==>
              && !g.revealing
              && sq in g.position.board && g.position.board[sq].color != g.current
              && g.lastCapture != Some(sq)
              && !(exists m :: m in g.position.legal && m.to == sq && m.from in g.position.board
                                && g.position.board[m.from].color == g.current)
  {
    VisibleFacts(g.position, g.current, g.lastCapture, sq);
  }

  /** The reveal power-up: with one left, it is spent and the reveal turns
      on; with none left nothing changes. */
  function Reveal(g: Game): (r: Game)
    ensures g.powerups > 0 ==> r == g.(powerups := g.powerups - 1, revealing := true)
    ensures g.powerups == 0 ==> r == g
  {
    if g.powerups > 0 then g.(revealing := true, powerups := g.powerups - 1) else g
  }

  function RevealTimes(g: Game, n: nat): Game
    decreases n
  {
    if n == 0 then g else RevealTimes(Reveal(g), n - 1)
  }

  /** `n` reveal presses spend min(n, p) of the p power-ups, never going
      below zero, and leave the reveal on if any was spent. */
  lemma {:induction false} RevealTimesSpends(g: Game, n: nat)
    ensures RevealTimes(g, n).powerups == Max(0, g.powerups - n)
    ensures RevealTimes(g, n).revealing <==> g.revealing || (n > 0 && g.powerups > 0)
    ensures RevealTimes(g, n) == g.(powerups := RevealTimes(g, n).powerups, revealing := RevealTimes(g, n).revealing)
    decreases n
  {
    if n > 0 {
      RevealTimesSpends(Reveal(g), n - 1);
    }
  }

  /** A board click. Ignored once the game is over. With a square selected,
      a legal target plays the move (`next` is the library's position after
      it), records the target as the last capture when the move captures and
      passes the turn; the selection is cleared either way. With nothing
      selected, only a piece of the player to move can be selected. */
  function OnSquareClick(g: Game, sq: Square, next: Position): (r: Game)
    ensures g.gameOver ==> r == g
    ensures !g.gameOver && g.selected.Some? ==>
              && r.selected == None
              && (IsLegal(g.position, g.selected.value, sq) ==>
                    var m := FindMove(g.position.legal, g.selected.value, sq).value;
                    && r.position == next && r.current == next.turn
                    && r.lastCapture == (if m.captured then Some(sq) else g.lastCapture)
                    && r == g.(lastCapture := r.lastCapture, position := next, current := next.turn,
                               gameOver := g.gameOver || next.over, selected := None))
              && (!IsLegal(g.position, g.selected.value, sq) ==> r == g.(selected := None))
    ensures !g.gameOver && g.selected.None? ==>
              && (r.selected.Some? <==> sq in g.position.board && g.position.board[sq].color == g.current)
              && (r.selected.Some? ==> r.selected == Some(sq))
              && r == g.(selected := r.selected)
    ensures r.lastCapture != g.lastCapture ==> r.lastCapture == Some(sq)
    ensures r.powerups == g.powerups && r.revealing == g.revealing && r.clock == g.clock
    ensures r.timeControl == g.timeControl
  {
    if g.gameOver then g
    else match g.selected
      case Some(from) =>
        (match FindMove(g.position.legal, from, sq)
         case None => g.(selected := None)
         case Some(m) =>
           var capture := if m.captured then Some(sq) else g.lastCapture;
           g.(lastCapture := capture, position := next, current := next.turn,
              gameOver := g.gameOver || next.over, selected := None))
      case None =>
        if sq in g.position.board && g.position.board[sq].color == g.current then g.(selected := Some(sq))
        else g
  }

  /** The square of a capture just made stays visible, and so is never
      ghosted, until the capture is cleared. */
  lemma CaptureStaysVisible(g: Game, sq: Square, next: Position)
    requires !g.gameOver && g.selected.Some? && IsLegal(g.position, g.selected.value, sq)
    requires FindMove(g.position.legal, g.selected.value, sq).value.captured
    ensures var r := OnSquareClick(g, sq, next);
            && r.lastCapture == Some(sq)
            && sq in Visible(r)
            && sq !in Ghosted(r.position.board, Visible(r), r.revealing)
  {
  }

  /** The computer's move: a uniformly random legal move (`pick` is the random
      index), played only in the computer-opponent mode while the game is
      running. Returns the new state and the move played. The application
      opens this variant only in ghost mode, where it never plays. */
  function AiMove(g: Game, mode: GameMode, pick: nat, next: Position): (r: (Game, Option<Move>))
    requires |g.position.legal| > 0 ==> pick < |g.position.legal|
    ensures r.1.Some? <==> mode == AiMode && !g.position.over && !g.gameOver && |g.position.legal| > 0
    ensures r.1.Some? ==> r.1.value in g.position.legal && r.0.position == next && r.0.current == next.turn
    ensures r.1.Some? ==> r.0 == g.(position := next, current := next.turn, gameOver := g.gameOver || next.over)
    ensures r.1.None? ==> r.0 == g
    ensures mode == GhostMode ==> r == (g, None)
  {
    if mode != AiMode || g.position.over || g.gameOver || |g.position.legal| == 0 then (g, None)
    else
      var m := g.position.legal[pick];
      (g.(position := next, current := next.turn, gameOver := g.gameOver || next.over), Some(m))
  }

  /** The computer's move is one the player to move could have played by
      clicking: the same position follows; the click also records a capture
      and clears the selection, which the computer's move does not touch. */
  lemma AiMoveIsAClick(g: Game, mode: GameMode, pick: nat, next: Position)
    requires |g.position.legal| > 0 ==> pick < |g.position.legal|
    requires AiMove(g, mode, pick, next).1.Some?
    ensures var m := AiMove(g, mode, pick, next).1.value;
            var click := OnSquareClick(g.(selected := Some(m.from)), m.to, next);
            && IsLegal(g.position, m.from, m.to)
            && click == AiMove(g, mode, pick, next).0.(lastCapture := click.lastCapture, selected := None)
  {
    var m := AiMove(g, mode, pick, next).1.value;
    assert m in g.position.legal;
  }

  /** One interval callback of the clock, charged to the side to move. */
  function Tick(g: Game): (r: Game)
    ensures r == g.(clock := r.clock, gameOver := r.gameOver)
    ensures g.timeControl == 0 || g.gameOver ==> r == g
    ensures Remaining(r.clock, Opponent(g.current)) == Remaining(g.clock, Opponent(g.current))
    ensures g.timeControl > 0 && !g.gameOver ==>
              if Remaining(g.clock, g.current) == 0 then r.clock == g.clock && r.gameOver
              else Remaining(r.clock, g.current) + 1 == Remaining(g.clock, g.current) && !r.gameOver
  {
    var (clock, over) := IntervalTick(g.clock, g.current, g.timeControl, g.gameOver);
    g.(clock := clock, gameOver := over)
  }
}

=== FILE: quantum.dfy ===
/** The quantum variant: a registry of decorative quantum states, a list of
    entangled pairs, and the move rule that lets an illegal target merely
    pass the turn while quantum mode is on.

    Quantum states and pairs are never consulted by the rules library; they
    only record what was clicked. */
module QuantumGame {
  import opened Chess

  /** A square with a probability and a copy of the piece standing there. */
  datatype QuantumState = QuantumState(square: Square, probability: real, piece: Piece)

  datatype EntangledPair = EntangledPair(piece1: QuantumState, piece2: QuantumState)

  datatype Game = Game(
    position: Position,
    quantumStates: seq<QuantumState>,
    pairs: seq<EntangledPair>,
    selected: Option<Square>,
    quantumMode: bool,
    entangleMode: bool,
    current: Color,
    gameOver: bool)

  /** A fresh quantum state for `piece` on `sq`, with probability 1. */
  function CreateQuantumState(sq: Square, piece: Piece): (r: QuantumState)
    ensures r.square == sq && r.piece == piece && r.probability == 1.0
  {
    QuantumState(sq, 1.0, piece)
  }

  /** The two squares a pair links. */
  function PairSquares(p: EntangledPair): set<Square>
  {
    {p.piece1.square, p.piece2.square}
  }

  /** Some pair already uses `sq`. */
  predicate Entangled(pairs: seq<EntangledPair>, sq: Square)
  {
    exists p :: p in pairs && sq in PairSquares(p)
  }

  /** No pair links a square to itself, and every square occurs in at most
      one pair. */
  predicate PairsWellFormed(pairs: seq<EntangledPair>)
  {
    && (forall i :: 0 <= i < |pairs| ==> pairs[i].piece1.square != pairs[i].piece2.square)
    && (forall i, j :: 0 <= i < j < |pairs| ==> PairSquares(pairs[i]) !! PairSquares(pairs[j]))
  }

  /** A click in entangle mode. An empty square changes nothing. Clicking the
      selected square again clears the selection. With nothing selected the
      square becomes the selection. Otherwise the selected square and this
      one are paired, unless either is already entangled, and the selection
      is cleared either way. A selection whose square has become empty makes
      the handler fail before any change (the piece copy reads a missing
      piece). */
  function HandleEntanglement(g: Game, sq: Square): (r: Game)
    ensures r == g.(pairs := r.pairs, selected := r.selected)
    ensures sq !in g.position.board ==> r == g
    ensures sq in g.position.board && g.selected == Some(sq) ==> r == g.(selected := None)
    ensures sq in g.position.board && g.selected == None ==> r == g.(selected := Some(sq))
    ensures r.pairs == g.pairs || (|r.pairs| == |g.pairs| + 1 && r.pairs[..|g.pairs|] == g.pairs)
    ensures |r.pairs| > |g.pairs| <==>
              && sq in g.position.board
              && g.selected.Some? && g.selected.value != sq
              && g.selected.value in g.position.board
              && !Entangled(g.pairs, g.selected.value) && !Entangled(g.pairs, sq)
    ensures |r.pairs| > |g.pairs| ==>
              r.pairs[|g.pairs|] == EntangledPair(
                CreateQuantumState(g.selected.value, g.position.board[g.selected.value]),
                CreateQuantumState(sq, g.position.board[sq]))
    ensures sq in g.position.board && g.selected.Some? && g.selected.value in g.position.board ==>
              r.selected == None
  {
    var board := g.position.board;
    if sq !in board then g
    else if g.selected == Some(sq) then g.(selected := None)
    else match g.selected
      case None => g.(selected := Some(sq))
      case Some(first) =>
        if first !in board then g
        else
          var piece1 := CreateQuantumState(first, board[first]);
          var piece2 := CreateQuantumState(sq, board[sq]);
          var alreadyEntangled := Entangled(g.pairs, first) || Entangled(g.pairs, sq);
          var pairs := if !alreadyEntangled then g.pairs + [EntangledPair(piece1, piece2)] else g.pairs;
          g.(pairs := pairs, selected := None)
  }

  /** Entangle clicks keep the pair list well formed and never remove a pair. */
  lemma EntanglementKeepsPairsWellFormed(g: Game, sq: Square)
    requires PairsWellFormed(g.pairs)
    ensures PairsWellFormed(HandleEntanglement(g, sq).pairs)
    ensures HandleEntanglement(g, sq).pairs[..|g.pairs|] == g.pairs
  {
    var r := HandleEntanglement(g, sq);
    if |r.pairs| > |g.pairs| {
      var n := |g.pairs|;
      var p := r.pairs[n];
      forall i | 0 <= i < n
        ensures PairSquares(r.pairs[i]) !! PairSquares(p)
      {
        assert r.pairs[i] == g.pairs[i] && g.pairs[i] in g.pairs;
        assert !Entangled(g.pairs, p.piece1.square) && !Entangled(g.pairs, p.piece2.square);
      }
    }
  }

  /** A quantum move from `from` to `to`. Nothing happens when the squares
      coincide or `from` is empty, nor, outside quantum mode, when the target
      is not legal. Otherwise a quantum state recording the target and the
      moved piece is appended; a legal move is then played (`next` is the
      library's position after it) and the side to move follows the board,
      while an illegal target in quantum mode leaves the board alone and only
      passes the turn. `probability` is the random value in [0.5, 1) stored
      in the new state. */
  function HandleQuantumMove(g: Game, from: Square, to: Square, next: Position, probability: real): (r: Game)
    ensures from == to || from !in g.position.board ==> r == g
    ensures !IsLegal(g.position, from, to) && !g.quantumMode ==> r == g
    ensures from != to && from in g.position.board && (IsLegal(g.position, from, to) || g.quantumMode) ==>
              && r.quantumStates == g.quantumStates + [QuantumState(to, probability, g.position.board[from])]
              && r.selected == None
              && r.pairs == g.pairs
              && (IsLegal(g.position, from, to) ==>
                    r.position == next && r.current == next.turn && (r.gameOver <==> g.gameOver || next.over))
              && (!IsLegal(g.position, from, to) ==>
                    r.position == g.position && r.current == Opponent(g.current) && r.gameOver == g.gameOver)
    ensures r.pairs == g.pairs && r.quantumMode == g.quantumMode && r.entangleMode == g.entangleMode
  {
    if from == to || from !in g.position.board then g
    else
      var piece := g.position.board[from];
      var legal := IsLegal(g.position, from, to);
      if !legal && !g.quantumMode then g
      else
        var states := g.quantumStates + [QuantumState(to, probability, piece)];
        if legal then
          g.(position := next, current := next.turn, gameOver := g.gameOver || next.over,
             quantumStates := states, selected := None)
        else
          g.(current := Opponent(g.current), quantumStates := states, selected := None)
  }

  /** A board click. It is ignored once the game is over and handled as an
      entangle click in entangle mode. Otherwise, with a piece selected, a
      click on that piece deselects it; any other square is a quantum move in
      quantum mode and a plain move attempt outside it, and the selection is
      cleared afterwards. With nothing selected, only a piece of the player to
      move can be selected. */
  function OnSquareClick(g: Game, sq: Square, next: Position, probability: real): (r: Game)
    ensures g.gameOver ==> r == g
    ensures !g.gameOver && g.entangleMode ==> r == HandleEntanglement(g, sq)
    ensures !g.gameOver && !g.entangleMode && g.selected.Some? ==> r.selected == None
    ensures !g.gameOver && !g.entangleMode && g.selected.None? ==>
              && (r.selected.Some? <==> sq in g.position.board && g.position.board[sq].color == g.current)
              && (r.selected.Some? ==> r.selected == Some(sq))
              && r == g.(selected := r.selected)
    ensures !g.gameOver && !g.entangleMode && g.selected.Some? && g.selected.value != sq
              && !g.quantumMode ==>
              if IsLegal(g.position, g.selected.value, sq)
              then r == g.(position := next, current := next.turn, gameOver := g.gameOver || next.over, selected := None)
              else r == g.(selected := None)
    ensures !g.gameOver && !g.entangleMode && g.selected.Some? && g.selected.value != sq
              && g.quantumMode ==>
              r == HandleQuantumMove(g, g.selected.value, sq, next, probability).(selected := None)
    ensures r.pairs == g.pairs || g.entangleMode
  {
    if g.gameOver then g
    else if g.entangleMode then HandleEntanglement(g, sq)
    else match g.selected
      case Some(from) =>
        if from == sq then g.(selected := None)
        else if g.quantumMode then HandleQuantumMove(g, from, sq, next, probability).(selected := None)
        else if IsLegal(g.position, from, sq) then
          g.(position := next, current := next.turn, gameOver := g.gameOver || next.over, selected := None)
        else g.(selected := None)
      case None =>
        if sq in g.position.board && g.position.board[sq].color == g.current then g.(selected := Some(sq))
        else g
  }

  /** No click, in any mode, ever breaks the pair invariant or removes a pair. */
  lemma ClickKeepsPairsWellFormed(g: Game, sq: Square, next: Position, probability: real)
    requires PairsWellFormed(g.pairs)
    ensures PairsWellFormed(OnSquareClick(g, sq, next, probability).pairs)
    ensures OnSquareClick(g, sq, next, probability).pairs[..|g.pairs|] == g.pairs
  {
    if !g.gameOver && g.entangleMode {
      EntanglementKeepsPairsWellFormed(g, sq);
    }
  }
}

=== FILE: ranking.dfy ===
/** Choosing among scored candidate moves: the best-move hint keeps the first
    candidate of maximal score, and the computer opponent sorts the candidates
    by descending score and picks one of the first three. */
module Ranking {

  datatype Scored<T> = Scored(item: T, score: int)

  function Min(a: int, b: int): int
  {
    if a <= b then a else b
  }

  /** `k` is the first index holding the maximal score. */
  predicate IsFirstMax(scores: seq<int>, k: int)
  {
    && 0 <= k < |scores|
    && (forall j :: 0 <= j < |scores| ==> scores[j] <= scores[k])
    && (forall j :: 0 <= j < k ==> scores[j] < scores[k])
  }

  /** The hint loop: a candidate replaces the current best only when its
      score is strictly greater, so ties go to the earliest candidate.
      Answers -1 when there is no candidate. */
  method FirstMax(scores: seq<int>) returns (best: int)
    ensures |scores| == 0 <==> best == -1
    ensures |scores| > 0 ==> IsFirstMax(scores, best)
  {
    best := -1;
    var i := 0;
    while i < |scores|
      invariant 0 <= i <= |scores|
      invariant i == 0 <==> best == -1
      invariant i > 0 ==> IsFirstMax(scores[..i], best)
    {
      if best == -1 || scores[i] > scores[best] {
        best := i;
      }
      i := i + 1;
    }
    assert scores[..|scores|] == scores;
  }

  /** Sorted by descending score. */
  predicate SortedDesc<T>(s: seq<Scored<T>>)
  {
    forall i, j :: 0 <= i < j < |s| ==> s[i].score >= s[j].score
  }

  /** Puts `x` in front of the first element that does not score higher, so
      that elements of equal score keep their original order. */
  function Insert<T>(x: Scored<T>, s: seq<Scored<T>>): (r: seq<Scored<T>>)
    ensures |r| == |s| + 1
  {
    if |s| == 0 || s[0].score <= x.score then [x] + s
    else [s[0]] + Insert(x, s[1..])
  }

  /** Stable insertion sort by descending score, the order the opponent's
      candidates are ranked in. */
  function SortDesc<T>(s: seq<Scored<T>>): (r: seq<Scored<T>>)
    ensures |r| == |s|
  {
    if |s| == 0 then [] else Insert(s[0], SortDesc(s[1..]))
  }

  lemma {:induction false} InsertMultiset<T>(x: Scored<T>, s: seq<Scored<T>>)
    ensures multiset(Insert(x, s)) == multiset(s) + multiset{x}
  {
    if |s| > 0 && s[0].score > x.score {
      InsertMultiset(x, s[1..]);
      assert s == [s[0]] + s[1..];
    }
  }

  lemma {:induction false} InsertFacts<T>(x: Scored<T>, s: seq<Scored<T>>)
    requires SortedDesc(s)
    ensures SortedDesc(Insert(x, s))
    ensures multiset(Insert(x, s)) == multiset(s) + multiset{x}
  {
    InsertMultiset(x, s);
    if |s| > 0 && s[0].score > x.score {
      InsertFacts(x, s[1..]);
      var t := Insert(x, s[1..]);
      forall k | 0 <= k < |t|
        ensures s[0].score >= t[k].score
      {
        assert t[k] in multiset(t);
        if t[k] != x {
          assert t[k] in multiset(s[1..]);
        }
      }
      var r := [s[0]] + t;
      forall i, j | 0 <= i < j < |r|
        ensures r[i].score >= r[j].score
      {
        if i > 0 {
          assert r[i] == t[i - 1] && r[j] == t[j - 1];
        } else {
          assert r[j] == t[j - 1];
        }
      }
    }
  }

  /** The sort is a permutation of its input, in descending order. */
  lemma {:induction false} SortFacts<T>(s: seq<Scored<T>>)
    ensures SortedDesc(SortDesc(s))
    ensures multiset(SortDesc(s)) == multiset(s)
  {
    if |s| > 0 {
      SortFacts(s[1..]);
      InsertFacts(s[0], SortDesc(s[1..]));
      assert s == [s[0]] + s[1..];
    }
  }

  /** How many entries score strictly more than `v`. */
  function CountAbove<T>(s: seq<Scored<T>>, v: int): nat
  {
    if |s| == 0 then 0
    else (if s[0].score > v then 1 else 0) + CountAbove(s[1..], v)
  }

  lemma {:induction false} CountAboveInsert<T>(x: Scored<T>, s: seq<Scored<T>>, v: int)
    ensures CountAbove(Insert(x, s), v) == CountAbove(s, v) + (if x.score > v then 1 else 0)
  {
    if |s| == 0 || s[0].score <= x.score {
      assert ([x] + s)[1..] == s;
    } else {
      CountAboveInsert(x, s[1..], v);
      assert ([s[0]] + Insert(x, s[1..]))[1..] == Insert(x, s[1..]);
    }
  }

  /** Sorting does not change how many entries beat a score. */
  lemma {:induction false} CountAboveSort<T>(s: seq<Scored<T>>, v: int)
    ensures CountAbove(SortDesc(s), v) == CountAbove(s, v)
  {
    if |s| > 0 {
      CountAboveSort(s[1..], v);
      CountAboveInsert(s[0], SortDesc(s[1..]), v);
    }
  }

  /** In a descending list only the entries before position `p` can beat the
      entry at `p`. */
  lemma {:induction false} CountAboveSorted<T>(s: seq<Scored<T>>, p: nat, v: int)
    requires SortedDesc(s) && p < |s| && s[p].score <= v
    ensures CountAbove(s, v) <= p
  {
    if p > 0 {
      CountAboveSorted(s[1..], p - 1, v);
    } else {
      CountAboveNone(s, v);
    }
  }

  lemma {:induction false} CountAboveNone<T>(s: seq<Scored<T>>, v: int)
    requires SortedDesc(s) && (|s| > 0 ==> s[0].score <= v)
    ensures CountAbove(s, v) == 0
  {
    if |s| > 0 {
      CountAboveNone(s[1..], v);
    }
  }

  /** An entry scoring more than `v` is counted. */
  lemma {:induction false} CountAboveWitness<T>(s: seq<Scored<T>>, v: int, i: nat)
    requires i < |s| && s[i].score > v
    ensures CountAbove(s, v) >= 1
  {
    if i > 0 {
      CountAboveWitness(s[1..], v, i - 1);
    }
  }

  /** When every other entry beats entry `k`, all of them are counted. */
  lemma {:induction false} CountAboveAllBut<T>(s: seq<Scored<T>>, k: nat)
    requires k < |s|
    requires forall i :: 0 <= i < |s| && i != k ==> s[i].score > s[k].score
    ensures CountAbove(s, s[k].score) == |s| - 1
  {
    if k > 0 {
      CountAboveAllBut(s[1..], k - 1);
    } else {
      CountAboveAll(s[1..], s[k].score);
    }
  }

  lemma {:induction false} CountAboveAll<T>(s: seq<Scored<T>>, v: int)
    requires forall i :: 0 <= i < |s| ==> s[i].score > v
    ensures CountAbove(s, v) == |s|
  {
    if |s| > 0 {
      CountAboveAll(s[1..], v);
    }
  }

  /** How many entries before position `j` tie with it. */
  function TiesBefore<T>(s: seq<Scored<T>>, j: nat): nat
    requires j < |s|
  {
    if j == 0 then 0
    else (if s[0].score == s[j].score then 1 else 0) + TiesBefore(s[1..], j - 1)
  }

  /** The position entry `j` takes in a stable descending sort: after every
      entry that scores more, and after the tied entries that precede it. */
  function StableRank<T>(s: seq<Scored<T>>, j: nat): nat
    requires j < |s|
  {
    CountAbove(s, s[j].score) + TiesBefore(s, j)
  }

  /** Where `Insert` puts `x`: in front of the first entry not scoring more. */
  function InsertPos<T>(x: Scored<T>, t: seq<Scored<T>>): nat
  {
    if |t| == 0 || t[0].score <= x.score then 0 else 1 + InsertPos(x, t[1..])
  }

  lemma {:induction false} InsertSplit<T>(x: Scored<T>, t: seq<Scored<T>>)
    ensures InsertPos(x, t) <= |t|
    ensures Insert(x, t) == t[..InsertPos(x, t)] + [x] + t[InsertPos(x, t)..]
    ensures forall i :: 0 <= i < InsertPos(x, t) ==> t[i].score > x.score
    ensures InsertPos(x, t) < |t| ==> t[InsertPos(x, t)].score <= x.score
  {
    if |t| > 0 && t[0].score > x.score {
      InsertSplit(x, t[1..]);
      var q := InsertPos(x, t[1..]);
      assert t[..q + 1] == [t[0]] + t[1..][..q];
      assert t[q + 1..] == t[1..][q..];
      forall i | 0 <= i < q + 1
        ensures t[i].score > x.score
      {
        if i > 0 {
          assert t[i] == t[1..][i - 1];
        }
      }
    }
  }

  /** In a descending list, `x` goes in after exactly the entries scoring more. */
  lemma {:induction false} InsertPosCount<T>(x: Scored<T>, t: seq<Scored<T>>)
    requires SortedDesc(t)
    ensures CountAbove(t, x.score) == InsertPos(x, t)
  {
    if |t| > 0 {
      if t[0].score <= x.score {
        CountAboveNone(t, x.score);
      } else {
        InsertPosCount(x, t[1..]);
      }
    }
  }

  /** Dropping the first entry lowers another entry's stable rank by one
      exactly when the first entry scores at least as much. */
  lemma RankTail<T>(s: seq<Scored<T>>, k: nat)
    requires k + 1 < |s|
    ensures StableRank(s, k + 1) == StableRank(s[1..], k) + (if s[0].score >= s[k + 1].score then 1 else 0)
  {
    assert s[1..][k] == s[k + 1];
  }

  /** The layout of `Insert(x, sorted)`: `x` sits at the count of entries
      scoring more, with the higher entries before it and the rest after. */
  lemma {:induction false} InsertLayout<T>(x: Scored<T>, t: seq<Scored<T>>)
    ensures var sorted := SortDesc(t);
            var q := CountAbove(t, x.score);
            && q <= |t|
            && Insert(x, sorted) == sorted[..q] + [x] + sorted[q..]
            && (forall i :: 0 <= i < q ==> sorted[i].score > x.score)
            && (forall i :: q <= i < |t| ==> sorted[i].score <= x.score)
  {
    SortFacts(t);
    var sorted := SortDesc(t);
    InsertSplit(x, sorted);
    InsertPosCount(x, sorted);
    CountAboveSort(t, x.score);
  }

  /** Stability: the entry at position `p` of the sorted list is an input
      entry whose stable rank is `p`. */
  lemma {:induction false} SortRank<T>(s: seq<Scored<T>>, p: nat)
    requires p < |s|
    ensures exists j :: 0 <= j < |s| && SortDesc(s)[p] == s[j] && StableRank(s, j) == p
    decreases |s|
  {
    var x := s[0];
    var t := s[1..];
    var sorted := SortDesc(t);
    InsertLayout(x, t);
    var q := CountAbove(t, x.score);
    assert SortDesc(s) == Insert(x, sorted);
    if p == q {
      assert SortDesc(s)[p] == x;
      assert StableRank(s, 0) == p;
    } else if p < q {
      assert SortDesc(s)[p] == sorted[p];
      SortRank(t, p);
      var k :| 0 <= k < |t| && sorted[p] == t[k] && StableRank(t, k) == p;
      RankTail(s, k);
      assert s[k + 1] == t[k];
    } else {
      assert SortDesc(s)[p] == sorted[p - 1];
      SortRank(t, p - 1);
      var k :| 0 <= k < |t| && sorted[p - 1] == t[k] && StableRank(t, k) == p - 1;
      RankTail(s, k);
      assert s[k + 1] == t[k];
    }
  }

  /** Among candidates that all tie, an entry's stable rank is its index. */
  lemma {:induction false} TiedRankIsIndex<T>(s: seq<Scored<T>>, j: nat)
    requires j < |s|
    requires forall i :: 0 <= i < |s| ==> s[i].score == s[0].score
    ensures StableRank(s, j) == j
  {
    CountAboveNone(s, s[j].score);
    TiesBeforeAllTied(s, j);
  }

  lemma {:induction false} TiesBeforeAllTied<T>(s: seq<Scored<T>>, j: nat)
    requires j < |s|
    requires forall i :: 0 <= i < |s| ==> s[i].score == s[0].score
    ensures TiesBefore(s, j) == j
  {
    if j > 0 {
      assert s[1..][0] == s[1];
      TiesBeforeAllTied(s[1..], j - 1);
    }
  }

  /** The opponent's choice: entry number `pick` (a uniformly random index
      into the first min(3, n)) of the candidates sorted by descending score.
      The chosen entry is one of the candidates, and at most `pick`, hence at
      most two, candidates score strictly more. */
  function TopPick<T>(s: seq<Scored<T>>, pick: nat): (r: Scored<T>)
    requires pick < Min(3, |s|)
    ensures r in s
    ensures CountAbove(s, r.score) <= pick < 3
    ensures exists j :: 0 <= j < |s| && r == s[j] && StableRank(s, j) == pick
  {
    SortFacts(s);
    SortRank(s, pick);
    var sorted := SortDesc(s);
    assert sorted[pick] in multiset(sorted);
    CountAboveSorted(sorted, pick, sorted[pick].score);
    CountAboveSort(s, sorted[pick].score);
    sorted[..Min(3, |s|)][pick]
  }

  /** When every candidate ties, the opponent can only play one of the
      first three in the order the candidates were listed. */
  lemma TiedPickInOrder<T>(s: seq<Scored<T>>, pick: nat)
    requires pick < Min(3, |s|)
    requires forall i :: 0 <= i < |s| ==> s[i].score == s[0].score
    ensures TopPick(s, pick) == s[pick]
  {
    var j :| 0 <= j < |s| && TopPick(s, pick) == s[j] && StableRank(s, j) == pick;
    TiedRankIsIndex(s, j);
  }
}
